=== FILE: README.md ===
# RC controller panel: vehicle-control logic

A Dafny model of the control logic of the browser panel `script.js` that drives a
two-motor (differential-drive) vehicle over HTTP. The DOM and network plumbing is
stripped away; what remains is pure arithmetic and small state machines:

- **Motor mapper** (`MotorMapper`): the arithmetic of `updateJoystickPosition`. A
  pointer's vertical position in a joystick rectangle of height `H > 0` is offset
  from the centre, clamped to `maxRadius = 0.75 * H / 2`, scaled to `[-255, 255]`
  with `Math.round`, and clamped again. Up is forward (positive).
- **Vehicle state** (`Vehicle`): the `state` record, the effective
  `updateDerivedValues`, the brake, and the light, horn, hazard and indicator buttons.
- **Input tracker** (`InputTracker`): each joystick's closure state (`isDragging`,
  `activeTouchId`, whether its document-level mouse listeners are attached) and its
  `joystickActive` flag, with the mouse and touch handlers as pure transitions.
- **Base URL** (`ApiBase`): `getApiBase` over the `targetIp` / `targetPort` settings.
- **Panel** (`ControlPanel`): both joysticks, the buttons and the status poll driven
  by a sequence of abstract actions; invariants over every reachable state.
- `JsMath` holds `Math.round` (`(x + 0.5).Floor` over reals) and
  `Math.max(lo, Math.min(hi, v))`; `Seqs` holds the first-match search that the
  handlers' `for ... break` loops perform.

Numbers are Dafny `real` and `int` (unbounded, exact). `Math.round(n / 2)` on an
integer `n` is `(n + 1) / 2` with Dafny's floor division, since ties round upward.

Three behaviours of the code worth knowing:

- The file declares `updateDerivedValues` twice (script.js:37-43 and 228-238); the
  later declaration replaces the earlier one at load time, so `speed` is the signed
  average of the motors ("Calculated average", script.js:5), not the average of
  magnitudes the first declaration computes: the function can yield a negative speed
  (`Vehicle.SpeedCanBeNegative`), though no reachable state has one (next point).
- `updateDerivedValues` is called only from `sendBrake`, after both motors are set
  to 0. Joystick moves and status polls never call it. Hence `speed` and `steering`
  are 0 in every reachable state (`ControlPanel.DerivedFieldsStayZero`), rather than
  tracking the motors.
- The poll gate is checked when the timer fires, not when the reply arrives. A reply
  to a request sent just before a drag began still overwrites the dragged motor
  (`ControlPanel.LateReplyOverwritesDrag`).

## Model

| member | source | states |
|---|---|---|
| `JsMath.Round` | script.js:91 | `Math.round` yields the nearest integer, ties rounded toward +infinity |
| `JsMath.Clamp` | script.js:94 | `Math.max(lo, Math.min(hi, v))` lies in `[lo, hi]`, is `v` when `v` is in range and the violated bound otherwise |
| `JsMath.RoundHalf` | script.js:230-233 | `Math.round(n / 2)` equals `(n + 1) / 2` (floor division) for every integer `n` |
| `Seqs.FirstWhere` | script.js:126-140 | the index the search loop breaks at: the first matching element, and none exactly when no element matches |
| `MotorMapper.LimitedOffset` | script.js:81-84 | the clamped offset lies within `±maxRadius`, saturates beyond the travel, and is the raw offset from centre within it |
| `MotorMapper.RawSpeed` | script.js:91 | the speed is the nearest integer (ties upward) to the deflection `-limitedY / maxRadius * 255`, so it is proportional to the pointer's travel, and lies in `[-255, 255]` |
| `MotorMapper.MotorSpeed` | script.js:82-96 | for every positive height the stored motor speed lies in `[-255, 255]` and is the nearest integer to `-limitedY / maxRadius * 255` |
| `MotorMapper.FinalClampIsNoOp` | script.js:91-96 | the clamp applied when storing the motor never changes the rounded value |
| `MotorMapper.HandleTopPercent` | script.js:86-88 | the handle is drawn between 12.5% and 87.5% of the height, at 50% for a centred pointer |
| `MotorMapper.CentreGivesZero` | script.js:81-91 | a pointer exactly at `rect.top + H / 2` commands speed 0 |
| `MotorMapper.AboveReachGivesFullForward` | script.js:81-91 | a pointer at or above `centre - maxRadius` commands 255 |
| `MotorMapper.BelowReachGivesFullReverse` | script.js:81-91 | a pointer at or below `centre + maxRadius` commands -255 |
| `MotorMapper.MotorSpeedNonIncreasing` | script.js:83-91 | moving the pointer down never increases the commanded speed |
| `MotorMapper.SignFollowsSide` | script.js:83-91 | above the centre the speed is never negative, below it never positive |
| `MotorMapper.TranslationInvariant` | script.js:80-91 | the speed depends only on the pointer's position relative to the rectangle |
| `MotorMapper.FullDeflectionExample` | script.js:80-91 | with `H = 200` and `rect.top = 0`, `maxRadius` is 75 and a pointer at the top edge gives 255 |
| `Vehicle.UpdateDerivedValues` | script.js:228-238 | speed and steering end within `[-255, 255]`; motors and toggles are untouched |
| `Vehicle.DerivedValuesIntegerForm` | script.js:228-238 | with both motors in range, `speed = (l + r + 1) / 2` and `steering = (r - l + 1) / 2`, so the final clamps change nothing |
| `Vehicle.SpeedCanBeNegative` | script.js:230 | both motors at -255 give speed -255: the average is signed |
| `Vehicle.DerivedValuesExample` | script.js:230-233 | left 200, right -100 give speed 50 and steering -150 |
| `Vehicle.Brake` | script.js:328-334 | both motors, speed and steering become 0 and no toggle changes |
| `Vehicle.ToggleLight` | script.js:243-247 | the light flips and nothing else changes |
| `Vehicle.SetHorn` | script.js:255-279 | press sets the horn, release clears it, nothing else changes |
| `Vehicle.ToggleHazard` | script.js:282-292 | hazard flips; switching it on clears both indicators, switching it off keeps them; at-most-one of indicators/hazard is preserved |
| `Vehicle.ToggleLeftIndicator` | script.js:295-308 | the left indicator flips, hazard ends off, the right indicator is cleared when the left goes on; afterwards at most one of the three is on, from any state |
| `Vehicle.ToggleRightIndicator` | script.js:311-324 | mirror image of the left indicator |
| `Vehicle.HazardOverridesIndicatorExample` | script.js:282-292 | switching the hazard lights on while the left indicator blinks leaves hazard on and both indicators off |
| `Vehicle.PressButton` | script.js:241-334 | every button keeps at-most-one of indicators/hazard and motors in range; only the brake moves motors or derived fields, to 0; indicator clicks leave hazard off |
| `InputTracker.UpdatePosition` | script.js:93-97 | only the motor of the joystick's own side is written, with the mapped speed |
| `InputTracker.Reset` | script.js:103-118 | the drag, tracked touch and activity flag are cleared, that side's motor becomes exactly 0, the other motor, derived fields and toggles are unchanged |
| `InputTracker.OnMouseDown` | script.js:170-179 | a mouse press always starts a drag, marks the side active, attaches the listeners and maps the pointer |
| `InputTracker.OnMouseMove` | script.js:181-185 | while attached and dragging the pointer is mapped; otherwise nothing changes |
| `InputTracker.OnMouseUp` | script.js:187-194 | while attached and dragging the joystick is released, its motor stops and the listeners detach; otherwise nothing changes |
| `InputTracker.OnTouchStart` | script.js:121-141 | with a touch already tracked, or no touch inside the rectangle (edges inclusive), nothing changes; otherwise the first touch inside is captured and mapped |
| `InputTracker.OnTouchMove` | script.js:143-154 | a move whose touches lack the tracked id, or outside a touch drag, changes nothing; otherwise a touch with the tracked id is mapped |
| `InputTracker.OnTouchEnd` | script.js:156-167 | an end or cancel whose changed touches lack the tracked id, or outside a touch drag, changes nothing; otherwise the joystick is reset |
| `InputTracker.Step` | script.js:196-203 | every handler keeps the tracker well formed (activity mirrors dragging, a tracked touch implies a drag), keeps this motor in range and touches nothing but this motor |
| `ApiBase.GetApiBase` | script.js:26-34 | the base is empty exactly when the IP is empty, whatever the port; otherwise it starts with `http://` |
| `ApiBase.ParseGetApiBase` | script.js:26-34 | a base reads back as `http://ip:port`, `http://ip` or same-origin (a trailing colon is rejected), recovering the IP and the port for an IP without a colon; so each of the three cases is pinned |
| `ApiBase.ApiUrl` | script.js:354 | a request URL is the `getApiBase` base followed by the path: with no IP the same-origin path; otherwise `http://` first, and for an IP without a colon the part before the path reads back as exactly the configured IP and port |
| `ApiBase.SameOriginPaths` | script.js:354-370 | with no IP, the status poll goes to `/api/status` and the control push to `/api/control`, whatever the port |
| `ControlPanel.PollTick` | script.js:367-371 | a status request is sent only when neither joystick is active; otherwise nothing changes |
| `ControlPanel.Reconcile` | script.js:375-394 | the four toggles are adopted, a motor is overwritten only when the reply carries it, horn and derived fields stay |
| `ControlPanel.PollReply` | script.js:372-396 | a reply to an outstanding request is reconciled without re-checking the joysticks |
| `ControlPanel.PollFailed` | script.js:397 | a failed request leaves the vehicle and both joysticks as they were |
| `ControlPanel.ReconcileIdempotent` | script.js:375-394 | the same reply applied twice has the effect of applying it once |
| `ControlPanel.ApplyUserAction` | script.js:79-194 | joystick input changes only its own motor and its own tracker; every user action keeps the panel consistent |
| `ControlPanel.TouchReleaseStopsOnlyThatMotor` | script.js:103-167 | a touch end carrying the tracked id stops exactly that motor, releases that joystick, and leaves the other joystick, the other motor and all toggles alone |
| `ControlPanel.UserInputKeepsConsistent` | script.js:79-334 | every state reached by user input from a consistent one keeps both motors in range, at most one of indicators/hazard on and both trackers well formed |
| `ControlPanel.DerivedFieldsStayZero` | script.js:2-12 | speed and steering stay 0 through any sequence of joystick, button and poll actions |
| `ControlPanel.ReachableFromStart` | script.js:2-22 | from page load, user input keeps the panel consistent, and speed and steering are 0 in every reachable state |
| `ControlPanel.PollCanBreakExclusivity` | script.js:375-390 | a status reply can turn both indicators on: the poll does not keep the buttons' exclusivity |
| `ControlPanel.PollHazardExample` | script.js:369-390 | a tick while a joystick is active does nothing; otherwise a reply with hazard on turns hazard on |
| `ControlPanel.LateReplyOverwritesDrag` | script.js:367-394 | a reply to a request sent before a drag began overwrites the dragged motor |

## Left out

- `sendControl` and the poll's `fetch` calls: network I/O. The control URL and the state
  that would be serialised are modelled; the request itself and its JSON body are not.
- `setInterval` and the `beforeunload` cleanup: a timer tick is an abstract action.
- `localStorage` load and save, `JSON.parse` error handling, the trimming of the
  settings inputs and the save alert: browser storage and UI. The settings are taken as
  two strings.
- The speedometer SVG arithmetic (`updateSpeedometer`): floating point with pi, purely
  presentational.
- `updateButtonState`, CSS classes, the settings modal, fullscreen and orientation
  handling: DOM only. `preventDefault` calls are not modelled.
- The first `updateDerivedValues` (script.js:37-43): replaced at load time by the second.
- IEEE-754 behaviour: the mapper works over exact reals, and a zero-height rectangle
  (which yields NaN in the browser) is excluded by the rectangle's positive-height type.
- Status replies without a toggle field: the browser would write `undefined` into the
  boolean; `Status` carries every toggle. A motor field is modelled as an optional
  integer: a reply carrying `null`, a fractional number or another JSON value in a
  motor field, which the source stores as is, is not modelled. Motor values from a
  reply are not range checked, as in the source.
- Event delivery: document-level mouse move and up events reach each side whose
  listeners are attached as separate actions; the bounding rectangle read by a handler
  is the one carried by its event.
- ApiBase.GetApiBase: for an IP containing `:` the result is pinned only to start with
  `http://` and to be non-empty, because such a base cannot be split back into host
  and port unambiguously.
- InputTracker.OnTouchMove: states that a touch with the tracked id drives the motor,
  not that it is the first one in the list; browsers give the touches of one list
  distinct identifiers.

=== FILE: api_base.dfy ===
/** `getApiBase`: the URL prefix of every request, built from the connection settings. */
module ApiBase {
  import opened Seqs

  const Scheme: string := "http://"

  /** Empty IP means same origin (the page's own server); a port is appended only
      together with an IP. JavaScript's truthiness of a string is its non-emptiness. */
  function GetApiBase(ip: string, port: string): (r: string)
    ensures r == "" <==> ip == ""
    ensures ip != "" ==> |r| > |Scheme| && Scheme <= r
  {
    if ip != "" && port != "" then Scheme + ip + ":" + port
    else if ip != "" then Scheme + ip
    else ""
  }

  /** The path of the control push. */
  const ControlPath: string := "/api/control"

  /** The path of the status poll. */
  const StatusPath: string := "/api/status"

  /** The URL a request to `path` goes to; with no IP it is a same-origin relative path. */
  function ApiUrl(ip: string, port: string, path: string): (r: string)
    ensures ip == "" ==> r == path
    ensures |r| >= |path| && r[|r| - |path|..] == path
    ensures ip != "" ==> Scheme <= r
    ensures r[..|r| - |path|] == GetApiBase(ip, port)
    ensures ':' !in ip ==> ParseBase(r[..|r| - |path|]) == Some(Effective(ip, port))
  {
    var base := GetApiBase(ip, port);
    var r := base + path;
    assert r[..|r| - |path|] == base;
    if ':' in ip then r else ParseGetApiBase(ip, port); r
  }

  /** Without an IP both requests go to same-origin relative paths, whatever the port. */
  lemma SameOriginPaths(port: string)
    ensures ApiUrl("", port, ControlPath) == "/api/control"
    ensures ApiUrl("", port, StatusPath) == "/api/status"
  {
  }

  /** The host and port a base URL designates; empty strings stand for "not given". */
  datatype Endpoint = Endpoint(ip: string, port: string)

  /** Reads a base URL back: the empty base, or the scheme followed by a host and an
      optional `:port`. Anything else is not a base this controller builds. */
  function ParseBase(b: string): Option<Endpoint>
  {
    if b == "" then Some(Endpoint("", ""))
    else if |b| < |Scheme| || b[..|Scheme|] != Scheme then None
    else ParseHostPort(b[|Scheme|..])
  }

  /** Splits `host[:port]` at its first colon; a colon must be followed by a port, so
      a trailing colon is rejected. */
  function ParseHostPort(rest: string): Option<Endpoint>
  {
    match FirstWhere(rest, c => c == ':')
    case None => Some(Endpoint(rest, ""))
    case Some(i) => if i + 1 == |rest| then None else Some(Endpoint(rest[..i], rest[i + 1..]))
  }

  /** The settings a base URL is built from, with a port that has no IP dropped. */
  function Effective(ip: string, port: string): Endpoint
  {
    if ip == "" then Endpoint("", "") else Endpoint(ip, port)
  }

  lemma ParseHostOnly(ip: string)
    requires ':' !in ip
    ensures ParseHostPort(ip) == Some(Endpoint(ip, ""))
  {
    assert forall k :: 0 <= k < |ip| ==> ip[k] != ':';
  }

  lemma ParseHostAndPort(ip: string, port: string)
    requires ':' !in ip && port != ""
    ensures ParseHostPort(ip + ":" + port) == Some(Endpoint(ip, port))
  {
    var rest := ip + ":" + port;
    assert rest[|ip|] == ':';
    assert forall k :: 0 <= k < |ip| ==> rest[k] == ip[k];
    assert FirstWhere(rest, c => c == ':') == Some(|ip|);
    assert rest[..|ip|] == ip;
    assert rest[|ip| + 1..] == port;
  }

  /** A base URL can be read back into the settings it came from, as long as the host
      itself has no colon (an unbracketed IPv6 address would be ambiguous). */
  lemma ParseGetApiBase(ip: string, port: string)
    requires ':' !in ip
    ensures ParseBase(GetApiBase(ip, port)) == Some(Effective(ip, port))
  {
    var b := GetApiBase(ip, port);
    if ip != "" {
      if port != "" {
        assert b == Scheme + (ip + ":" + port);
        assert b[..|Scheme|] == Scheme && b[|Scheme|..] == ip + ":" + port;
        ParseHostAndPort(ip, port);
      } else {
        assert b == Scheme + ip;
        assert b[..|Scheme|] == Scheme && b[|Scheme|..] == ip;
        ParseHostOnly(ip);
      }
    }
  }
}

=== FILE: input_tracker.dfy ===
/** One joystick's pointer lifecycle (`initVerticalJoystick`): mouse and touch handlers
    as pure transitions over the joystick's own flags and the shared vehicle state. */
module InputTracker {
  import opened Seqs
  import opened MotorMapper
  import opened Vehicle

  /** A bounding client rectangle; its right and bottom edges follow from its size. */
  datatype Rect = Rect(left: real, top: real, width: real, height: PosReal) {
    function Right(): real { left + width }
    function Bottom(): real { top + height }
  }

  /** One entry of a `TouchList`. */
  datatype TouchPoint = TouchPoint(id: int, clientX: real, clientY: real)

  /** The touch-start hit test: edges count as inside. */
  predicate Inside(t: TouchPoint, r: Rect)
  {
    r.left <= t.clientX <= r.Right() && r.top <= t.clientY <= r.Bottom()
  }

  /** The per-side closure variables `isDragging` and `activeTouchId`, whether this
      side's document-level mouse listeners are attached, and `joystickActive[side]`. */
  datatype Joystick = Joystick(dragging: bool, touchId: Option<int>, mouseListening: bool, active: bool)

  /** A joystick as `initVerticalJoystick` leaves it. */
  const Idle: Joystick := Joystick(false, None, false, false)

  /** The activity flag mirrors the drag flag, and a tracked touch implies a drag. */
  predicate WellFormed(j: Joystick)
  {
    j.active == j.dragging && (j.touchId.Some? ==> j.dragging)
  }

  /** A joystick no longer controlling its motor. */
  predicate Released(j: Joystick)
  {
    !j.dragging && j.touchId.None? && !j.active
  }

  /** The events a joystick's handlers receive. `MouseMove` and `MouseUp` are heard on
      the document, so they reach a side only while its mouse listeners are attached. */
  datatype Event =
    | MouseDown(clientY: real, rect: Rect)
    | MouseMove(clientY: real, rect: Rect)
    | MouseUp
    | TouchStart(touches: seq<TouchPoint>, rect: Rect)
    | TouchMove(touches: seq<TouchPoint>, rect: Rect)
    | TouchEnd(changed: seq<TouchPoint>)
    | TouchCancel(changed: seq<TouchPoint>)

  /** A joystick and the vehicle state after a handler ran. */
  datatype Outcome = Outcome(stick: Joystick, vehicle: VehicleState)

  /** The state change of `updateJoystickPosition`: only this side's motor is written. */
  function UpdatePosition(v: VehicleState, side: Side, rect: Rect, clientY: real): (w: VehicleState)
    ensures Motor(w, side) == MotorSpeed(rect.height, rect.top, clientY)
    ensures InRange(Motor(w, side))
    ensures OnlyMotorChanged(v, w, side)
  {
    WithMotor(v, side, MotorSpeed(rect.height, rect.top, clientY))
  }

  /** `resetJoystick`: the drag ends, the touch is forgotten and this side's motor stops. */
  function Reset(j: Joystick, v: VehicleState, side: Side): (o: Outcome)
    ensures Released(o.stick) && o.stick.mouseListening == j.mouseListening
    ensures WellFormed(o.stick)
    ensures Motor(o.vehicle, side) == 0
    ensures OnlyMotorChanged(v, o.vehicle, side)
  {
    Outcome(j.(dragging := false, active := false, touchId := None), WithMotor(v, side, 0))
  }

  /** `onMouseDown`: the drag starts unconditionally and the mouse listeners are attached
      (attaching an already attached listener has no effect). */
  function OnMouseDown(j: Joystick, v: VehicleState, side: Side, clientY: real, rect: Rect): (o: Outcome)
    ensures o.stick.dragging && o.stick.active && o.stick.mouseListening
    ensures o.stick.touchId == j.touchId
    ensures WellFormed(j) ==> WellFormed(o.stick)
    ensures Motor(o.vehicle, side) == MotorSpeed(rect.height, rect.top, clientY)
    ensures OnlyMotorChanged(v, o.vehicle, side)
  {
    Outcome(j.(dragging := true, active := true, mouseListening := true), UpdatePosition(v, side, rect, clientY))
  }

  /** `onMouseMove`, when it is attached: the drag follows the pointer. */
  function OnMouseMove(j: Joystick, v: VehicleState, side: Side, clientY: real, rect: Rect): (o: Outcome)
    ensures o.stick == j
    ensures !(j.mouseListening && j.dragging) ==> o.vehicle == v
    ensures j.mouseListening && j.dragging ==> Motor(o.vehicle, side) == MotorSpeed(rect.height, rect.top, clientY)
    ensures OnlyMotorChanged(v, o.vehicle, side)
  {
    if j.mouseListening && j.dragging then Outcome(j, UpdatePosition(v, side, rect, clientY))
    else Outcome(j, v)
  }

  /** `onMouseUp`, when it is attached: a drag in progress is released and the listeners
      are detached; without a drag the listeners stay attached. */
  function OnMouseUp(j: Joystick, v: VehicleState, side: Side): (o: Outcome)
    ensures !(j.mouseListening && j.dragging) ==> o == Outcome(j, v)
    ensures j.mouseListening && j.dragging ==> Released(o.stick) && !o.stick.mouseListening && Motor(o.vehicle, side) == 0
    ensures WellFormed(j) ==> WellFormed(o.stick)
    ensures OnlyMotorChanged(v, o.vehicle, side)
  {
    if j.mouseListening && j.dragging then
      var o := Reset(j, v, side);
      Outcome(o.stick.(mouseListening := false), o.vehicle)
    else Outcome(j, v)
  }

  /** `onTouchStart`: unless a touch is already tracked, the first touch inside the
      rectangle is captured and drives the motor; otherwise nothing changes. */
  function OnTouchStart(j: Joystick, v: VehicleState, side: Side, touches: seq<TouchPoint>, rect: Rect): (o: Outcome)
    ensures j.touchId.Some? ==> o == Outcome(j, v)
    ensures (forall k :: 0 <= k < |touches| ==> !Inside(touches[k], rect)) ==> o == Outcome(j, v)
    ensures j.touchId.None? && (exists k :: 0 <= k < |touches| && Inside(touches[k], rect)) ==>
      exists k :: 0 <= k < |touches| && Inside(touches[k], rect)
        && (forall i :: 0 <= i < k ==> !Inside(touches[i], rect))
        && o.stick == j.(dragging := true, active := true, touchId := Some(touches[k].id))
        && Motor(o.vehicle, side) == MotorSpeed(rect.height, rect.top, touches[k].clientY)
    ensures WellFormed(j) ==> WellFormed(o.stick)
    ensures OnlyMotorChanged(v, o.vehicle, side)
  {
    if j.touchId.Some? then Outcome(j, v)
    else
      match FirstWhere(touches, t => Inside(t, rect))
      case None => Outcome(j, v)
      case Some(k) =>
        Outcome(j.(dragging := true, active := true, touchId := Some(touches[k].id)),
                UpdatePosition(v, side, rect, touches[k].clientY))
  }

  /** The id-matching guard shared by the touch-move and touch-end handlers. */
  predicate Tracks(j: Joystick, t: TouchPoint)
  {
    j.touchId.Some? && t.id == j.touchId.value
  }

  /** `onTouchMove`: during a touch drag, the first touch carrying the tracked id moves
      the motor; a list without it changes nothing. */
  function OnTouchMove(j: Joystick, v: VehicleState, side: Side, touches: seq<TouchPoint>, rect: Rect): (o: Outcome)
    ensures o.stick == j
    ensures !j.dragging || j.touchId.None? ==> o.vehicle == v
    ensures (forall k :: 0 <= k < |touches| ==> !Tracks(j, touches[k])) ==> o.vehicle == v
    ensures j.dragging && j.touchId.Some? && (exists k :: 0 <= k < |touches| && Tracks(j, touches[k])) ==>
      exists k :: 0 <= k < |touches| && Tracks(j, touches[k])
        && Motor(o.vehicle, side) == MotorSpeed(rect.height, rect.top, touches[k].clientY)
    ensures OnlyMotorChanged(v, o.vehicle, side)
  {
    if !j.dragging || j.touchId.None? then Outcome(j, v)
    else
      match FirstWhere(touches, t => Tracks(j, t))
      case None => Outcome(j, v)
      case Some(k) => Outcome(j, UpdatePosition(v, side, rect, touches[k].clientY))
  }

  /** `onTouchEnd` (also installed for `touchcancel`): during a touch drag, a changed
      touch carrying the tracked id releases the joystick; otherwise nothing changes. */
  function OnTouchEnd(j: Joystick, v: VehicleState, side: Side, changed: seq<TouchPoint>): (o: Outcome)
    ensures !j.dragging || j.touchId.None? ==> o == Outcome(j, v)
    ensures (forall k :: 0 <= k < |changed| ==> !Tracks(j, changed[k])) ==> o == Outcome(j, v)
    ensures j.dragging && (exists k :: 0 <= k < |changed| && Tracks(j, changed[k])) ==>
      o == Reset(j, v, side)
    ensures WellFormed(j) ==> WellFormed(o.stick)
    ensures OnlyMotorChanged(v, o.vehicle, side)
  {
    if !j.dragging || j.touchId.None? then Outcome(j, v)
    else
      match FirstWhere(changed, t => Tracks(j, t))
      case None => Outcome(j, v)
      case Some(_) => Reset(j, v, side)
  }

  /** Dispatch of one event to the handlers of the joystick on `side`. */
  function Step(j: Joystick, v: VehicleState, side: Side, e: Event): (o: Outcome)
    ensures WellFormed(j) ==> WellFormed(o.stick)
    ensures InRange(Motor(v, side)) ==> InRange(Motor(o.vehicle, side))
    ensures OnlyMotorChanged(v, o.vehicle, side)
  {
    match e
    case MouseDown(y, rect) => OnMouseDown(j, v, side, y, rect)
    case MouseMove(y, rect) => OnMouseMove(j, v, side, y, rect)
    case MouseUp => OnMouseUp(j, v, side)
    case TouchStart(ts, rect) => OnTouchStart(j, v, side, ts, rect)
    case TouchMove(ts, rect) => OnTouchMove(j, v, side, ts, rect)
    case TouchEnd(ts) => OnTouchEnd(j, v, side, ts)
    case TouchCancel(ts) => OnTouchEnd(j, v, side, ts)
  }
}

=== FILE: js_math.dfy ===
/** The JavaScript `Math` operations the controller relies on, over unbounded numbers. */
module JsMath {

  /** `Math.round`: the nearest integer, with halves rounded toward +infinity. */
  function Round(x: real): (r: int)
    ensures x - 0.5 < r as real <= x + 0.5
  {
    (x + 0.5).Floor
  }

  /** `Math.max(lo, Math.min(hi, v))` on integers. */
  function Clamp(v: int, lo: int, hi: int): (r: int)
    requires lo <= hi
    ensures lo <= r <= hi
    ensures lo <= v <= hi ==> r == v
    ensures v < lo ==> r == lo
    ensures v > hi ==> r == hi
  {
    var m := if hi < v then hi else v;
    if lo > m then lo else m
  }

  /** `Math.max(lo, Math.min(hi, v))` on reals: the clamp of the pointer offset to the
      handle's travel; `MotorMapper.LimitedOffset` states its use. */
  function ClampReal(v: real, lo: real, hi: real): (r: real)
    requires lo <= hi
    ensures lo <= r <= hi
    ensures lo <= v <= hi ==> r == v
    ensures v < lo ==> r == lo
    ensures v > hi ==> r == hi
  {
    var m := if hi < v then hi else v;
    if lo > m then lo else m
  }

  lemma ClampRealMonotone(a: real, b: real, lo: real, hi: real)
    requires lo <= hi && a <= b
    ensures ClampReal(a, lo, hi) <= ClampReal(b, lo, hi)
  {
  }

  lemma RoundMonotone(x: real, y: real)
    requires x <= y
    ensures Round(x) <= Round(y)
  {
  }

  /** Rounding an integral value leaves it alone. */
  lemma RoundOfInteger(n: int)
    ensures Round(n as real) == n
  {
  }

  /** `Math.round(n / 2)` for an integer `n` is `(n + 1)` halved with the
      floor, because the only ties are rounded upward. */
  lemma RoundHalf(n: int)
    ensures Round(n as real / 2.0) == (n + 1) / 2
  {
    var q := (n + 1) / 2;
    var r := Round(n as real / 2.0);
    assert n + 1 == 2 * q + (n + 1) % 2;
    assert (n - 1) as real < 2.0 * r as real <= (n + 1) as real;
    assert n - 1 < 2 * r <= n + 1;
  }
}

=== FILE: motor_mapper.dfy ===
/** The arithmetic of `updateJoystickPosition`: a vertical pointer position inside
    a joystick's bounding rectangle becomes a signed motor speed. */
module MotorMapper {
  import opened JsMath

  /** A rectangle height; the mapping divides by it, so it must be positive. */
  type PosReal = h: real | h > 0.0 witness 1.0

  /** Largest commanded speed magnitude. */
  const FullSpeed: int := 255

  /** Fraction of the half-height that the handle may travel. */
  const Reach: real := 0.75

  /** The handle's vertical travel limit measured from the centre. */
  function MaxRadius(height: PosReal): (m: real)
    ensures 0.0 < m < height / 2.0
  {
    (height / 2.0) * Reach
  }

  /** Vertical centre of the rectangle in client coordinates. */
  function CentreY(height: PosReal, top: real): real
  {
    top + height / 2.0
  }

  /** Pointer offset from the centre, clamped to the handle's travel. */
  function LimitedOffset(height: PosReal, top: real, clientY: real): (y: real)
    ensures -MaxRadius(height) <= y <= MaxRadius(height)
    ensures clientY <= CentreY(height, top) - MaxRadius(height) ==> y == -MaxRadius(height)
    ensures clientY >= CentreY(height, top) + MaxRadius(height) ==> y == MaxRadius(height)
    ensures -MaxRadius(height) <= clientY - CentreY(height, top) <= MaxRadius(height) ==> y == clientY - CentreY(height, top)
  {
    var m := MaxRadius(height);
    ClampReal(clientY - top - height / 2.0, -m, m)
  }

  /** The speed before the final clamp: `Math.round(-limitedY / maxRadius * 255)`. */
  function RawSpeed(height: PosReal, top: real, clientY: real): (r: int)
    ensures -FullSpeed <= r <= FullSpeed
    ensures var d := -LimitedOffset(height, top, clientY) / MaxRadius(height) * (FullSpeed as real);
      d - 0.5 < r as real <= d + 0.5
  {
    var m := MaxRadius(height);
    var y := LimitedOffset(height, top, clientY);
    DeflectionBounded(y, m);
    Round(-y / m * (FullSpeed as real))
  }

  /** The motor speed `updateJoystickPosition` stores for the pointer. */
  function MotorSpeed(height: PosReal, top: real, clientY: real): (r: int)
    ensures -FullSpeed <= r <= FullSpeed
    ensures var d := -LimitedOffset(height, top, clientY) / MaxRadius(height) * (FullSpeed as real);
      d - 0.5 < r as real <= d + 0.5
  {
    Clamp(RawSpeed(height, top, clientY), -FullSpeed, FullSpeed)
  }

  /** Where the handle is drawn, as a percentage of the rectangle's height from its top. */
  function HandleTopPercent(height: PosReal, top: real, clientY: real): (p: real)
    ensures 12.5 <= p <= 87.5
    ensures clientY == CentreY(height, top) ==> p == 50.0
  {
    var y := LimitedOffset(height, top, clientY);
    var p := ((height / 2.0 + y) / height) * 100.0;
    HandleFraction(height, y);
    p
  }

  lemma DeflectionBounded(y: real, m: real)
    requires m > 0.0 && -m <= y <= m
    ensures -(FullSpeed as real) <= -y / m * (FullSpeed as real) <= FullSpeed as real
  {
    assert -1.0 <= y / m <= 1.0;
  }

  lemma HandleFraction(height: PosReal, y: real)
    requires -MaxRadius(height) <= y <= MaxRadius(height)
    ensures 0.125 <= (height / 2.0 + y) / height <= 0.875
    ensures y == 0.0 ==> (height / 2.0 + y) / height == 0.5
  {
    assert MaxRadius(height) == 0.375 * height;
    ScaledBounds(height / 2.0 + y, 0.125, 0.875, height);
  }

  /** Dividing a value that lies between two multiples of `d` by `d`. */
  lemma ScaledBounds(a: real, lo: real, hi: real, d: real)
    requires d > 0.0 && lo * d <= a <= hi * d
    ensures lo <= a / d <= hi
  {
    var f := a / d;
    assert f * d == a;
  }

  /** Negating the dividend negates the quotient. */
  lemma NegDiv(a: real, m: real)
    requires m > 0.0
    ensures -a / m == -(a / m)
  {
    var q := a / m;
    assert q * m == a;
    assert (-q) * m == -a;
  }

  lemma DivideMonotone(a: real, b: real, m: real)
    requires m > 0.0 && a <= b
    ensures a / m <= b / m
  {
    assert b / m - a / m == (b - a) / m;
  }

  /** The final clamp never changes the rounded value. */
  lemma FinalClampIsNoOp(height: PosReal, top: real, clientY: real)
    ensures MotorSpeed(height, top, clientY) == RawSpeed(height, top, clientY)
  {
  }

  /** A pointer exactly at the vertical centre commands a stop. */
  lemma CentreGivesZero(height: PosReal, top: real)
    ensures MotorSpeed(height, top, CentreY(height, top)) == 0
  {
    assert LimitedOffset(height, top, CentreY(height, top)) == 0.0;
  }

  /** At or above the top of the handle's travel, the motor runs full forward. */
  lemma AboveReachGivesFullForward(height: PosReal, top: real, clientY: real)
    requires clientY <= CentreY(height, top) - MaxRadius(height)
    ensures MotorSpeed(height, top, clientY) == FullSpeed
  {
    var m := MaxRadius(height);
    assert LimitedOffset(height, top, clientY) == -m;
    NegDiv(-m, m);
    ScaledBounds(m, 1.0, 1.0, m);
    RoundOfInteger(FullSpeed);
  }

  /** At or below the bottom of the handle's travel, the motor runs full reverse. */
  lemma BelowReachGivesFullReverse(height: PosReal, top: real, clientY: real)
    requires clientY >= CentreY(height, top) + MaxRadius(height)
    ensures MotorSpeed(height, top, clientY) == -FullSpeed
  {
    var m := MaxRadius(height);
    assert LimitedOffset(height, top, clientY) == m;
    ScaledBounds(-m, -1.0, -1.0, m);
  }

  /** Moving the pointer down never increases the commanded speed. */
  lemma MotorSpeedNonIncreasing(height: PosReal, top: real, y1: real, y2: real)
    requires y1 <= y2
    ensures MotorSpeed(height, top, y2) <= MotorSpeed(height, top, y1)
  {
    var m := MaxRadius(height);
    var l1 := LimitedOffset(height, top, y1);
    var l2 := LimitedOffset(height, top, y2);
    ClampRealMonotone(y1 - top - height / 2.0, y2 - top - height / 2.0, -m, m);
    DivideMonotone(l1, l2, m);
    NegDiv(l1, m);
    NegDiv(l2, m);
    assert -l2 / m * 255.0 <= -l1 / m * 255.0;
    RoundMonotone(-l2 / m * 255.0, -l1 / m * 255.0);
  }

  /** Above the centre the motor never reverses; below it the motor never runs forward. */
  lemma SignFollowsSide(height: PosReal, top: real, clientY: real)
    ensures clientY <= CentreY(height, top) ==> MotorSpeed(height, top, clientY) >= 0
    ensures clientY >= CentreY(height, top) ==> MotorSpeed(height, top, clientY) <= 0
  {
    CentreGivesZero(height, top);
    if clientY <= CentreY(height, top) {
      MotorSpeedNonIncreasing(height, top, clientY, CentreY(height, top));
    }
    if clientY >= CentreY(height, top) {
      MotorSpeedNonIncreasing(height, top, CentreY(height, top), clientY);
    }
  }

  /** Only the pointer's position relative to the rectangle matters. */
  lemma TranslationInvariant(height: PosReal, top: real, clientY: real, shift: real)
    ensures MotorSpeed(height, top + shift, clientY + shift) == MotorSpeed(height, top, clientY)
  {
    assert clientY + shift - (top + shift) - height / 2.0 == clientY - top - height / 2.0;
  }

  /** A 200-unit joystick at the top of the page, dragged to its top edge,
      is at full forward deflection. */
  lemma FullDeflectionExample()
    ensures MaxRadius(200.0) == 75.0
    ensures MotorSpeed(200.0, 0.0, 0.0) == 255
  {
    AboveReachGivesFullForward(200.0, 0.0, 0.0);
  }
}

=== FILE: panel.dfy ===
/** The whole control panel: the vehicle state, both joysticks, the buttons, and the
    status poll, driven by a sequence of abstract user and timer actions. */
module ControlPanel {
  import opened Seqs
  import opened Vehicle
  import opened InputTracker
  import opened MotorMapper

  /** The page's global state: `state`, per side the tracker with its `joystickActive`
      flag, and the number of status requests whose replies have not arrived yet. */
  datatype Panel = Panel(vehicle: VehicleState, left: Joystick, right: Joystick, pending: nat)

  const Start: Panel := Panel(Initial, Idle, Idle, 0)

  function Stick(p: Panel, side: Side): Joystick
  {
    if side == Left then p.left else p.right
  }

  function WithStick(p: Panel, side: Side, j: Joystick): (q: Panel)
    ensures Stick(q, side) == j && Stick(q, side.Other()) == Stick(p, side.Other())
    ensures q.vehicle == p.vehicle
  {
    if side == Left then p.(left := j) else p.(right := j)
  }

  /** The fields of a `/api/status` reply the poll reads. Every toggle is taken to be
      present; a motor field may be absent. */
  datatype Status = Status(
    leftIndicator: bool,
    rightIndicator: bool,
    light: bool,
    hazard: bool,
    leftMotor: Option<int>,
    rightMotor: Option<int>)

  /** The poll is sent only while neither joystick is active. */
  predicate PollGate(p: Panel)
  {
    !p.left.active && !p.right.active
  }

  /** Reconciliation of a status reply: the four toggles are adopted, a motor is
      overwritten only when the reply carries it, and the derived fields and the horn
      are not touched. */
  function Reconcile(v: VehicleState, st: Status): (w: VehicleState)
    ensures w.leftIndicator == st.leftIndicator && w.rightIndicator == st.rightIndicator
    ensures w.light == st.light && w.hazard == st.hazard
    ensures w.leftMotor == (if st.leftMotor.Some? then st.leftMotor.value else v.leftMotor)
    ensures w.rightMotor == (if st.rightMotor.Some? then st.rightMotor.value else v.rightMotor)
    ensures w.horn == v.horn && w.speed == v.speed && w.steering == v.steering
  {
    var w := if st.leftIndicator != v.leftIndicator then v.(leftIndicator := st.leftIndicator) else v;
    var w := if st.rightIndicator != w.rightIndicator then w.(rightIndicator := st.rightIndicator) else w;
    var w := if st.light != w.light then w.(light := st.light) else w;
    var w := if st.hazard != w.hazard then w.(hazard := st.hazard) else w;
    var w := if st.leftMotor.Some? then w.(leftMotor := st.leftMotor.value) else w;
    if st.rightMotor.Some? then w.(rightMotor := st.rightMotor.value) else w
  }

  /** One timer tick: a status request goes out only while neither joystick is active. */
  function PollTick(p: Panel): (q: Panel)
    ensures PollGate(p) ==> q == p.(pending := p.pending + 1)
    ensures !PollGate(p) ==> q == p
  {
    if PollGate(p) then p.(pending := p.pending + 1) else p
  }

  /** A status reply arrives. It is reconciled without looking at the joysticks again;
      a reply nobody waits for does not exist, so it changes nothing. */
  function PollReply(p: Panel, st: Status): (q: Panel)
    ensures p.pending > 0 ==> q == p.(vehicle := Reconcile(p.vehicle, st), pending := p.pending - 1)
    ensures p.pending == 0 ==> q == p
  {
    if p.pending > 0 then p.(vehicle := Reconcile(p.vehicle, st), pending := p.pending - 1) else p
  }

  /** A status request fails: the error is logged and the state is kept. */
  function PollFailed(p: Panel): (q: Panel)
    ensures q.vehicle == p.vehicle && q.left == p.left && q.right == p.right
    ensures q.pending == if p.pending > 0 then p.pending - 1 else 0
  {
    if p.pending > 0 then p.(pending := p.pending - 1) else p
  }

  /** Something the user or the timer does. */
  datatype Action =
    | Input(side: Side, event: Event)
    | Click(button: Button)
    | Tick
    | Reply(status: Status)
    | Failed

  function Apply(p: Panel, a: Action): Panel
  {
    match a
    case Input(side, e) =>
      var o := Step(Stick(p, side), p.vehicle, side, e);
      WithStick(p.(vehicle := o.vehicle), side, o.stick)
    case Click(b) => p.(vehicle := PressButton(p.vehicle, b))
    case Tick => PollTick(p)
    case Reply(st) => PollReply(p, st)
    case Failed => PollFailed(p)
  }

  function Run(p: Panel, acts: seq<Action>): Panel
    decreases |acts|
  {
    if |acts| == 0 then p else Run(Apply(p, acts[0]), acts[1..])
  }

  /** Status replies are the only actions that write the toggles behind the buttons' back. */
  predicate NoPoll(acts: seq<Action>)
  {
    forall k :: 0 <= k < |acts| ==> !acts[k].Reply?
  }

  /** What user input alone keeps true of the panel. */
  predicate Consistent(p: Panel)
  {
    && WellFormed(p.left)
    && WellFormed(p.right)
    && MotorsInRange(p.vehicle)
    && IndicatorsExclusive(p.vehicle)
  }

  /** Joystick input never touches the toggles, the derived fields or the other motor,
      and every user action keeps the panel consistent. */
  lemma ApplyUserAction(p: Panel, a: Action)
    requires !a.Reply?
    ensures Consistent(p) ==> Consistent(Apply(p, a))
    ensures a.Input? ==> OnlyMotorChanged(p.vehicle, Apply(p, a).vehicle, a.side)
    ensures a.Input? ==> Stick(Apply(p, a), a.side.Other()) == Stick(p, a.side.Other())
  {
    if a.Input? {
      var o := Step(Stick(p, a.side), p.vehicle, a.side, a.event);
      assert Motor(o.vehicle, a.side.Other()) == Motor(p.vehicle, a.side.Other());
    }
  }

  /** Releasing a joystick by a touch end carrying the tracked id stops exactly its motor,
      ends its drag, and leaves the other side and every toggle alone. */
  lemma TouchReleaseStopsOnlyThatMotor(p: Panel, side: Side, changed: seq<TouchPoint>, k: nat)
    requires Stick(p, side).dragging && k < |changed| && Tracks(Stick(p, side), changed[k])
    ensures Motor(Apply(p, Input(side, TouchEnd(changed))).vehicle, side) == 0
    ensures Released(Stick(Apply(p, Input(side, TouchEnd(changed))), side))
    ensures Stick(Apply(p, Input(side, TouchEnd(changed))), side.Other()) == Stick(p, side.Other())
    ensures OnlyMotorChanged(p.vehicle, Apply(p, Input(side, TouchEnd(changed))).vehicle, side)
  {
    var o := OnTouchEnd(Stick(p, side), p.vehicle, side, changed);
    assert o == Reset(Stick(p, side), p.vehicle, side);
  }

  /** Every state user input can reach from a consistent one is consistent. */
  lemma {:induction false} UserInputKeepsConsistent(p: Panel, acts: seq<Action>)
    requires Consistent(p) && NoPoll(acts)
    ensures Consistent(Run(p, acts))
    decreases |acts|
  {
    if |acts| > 0 {
      ApplyUserAction(p, acts[0]);
      assert NoPoll(acts[1..]) by {
        forall k | 0 <= k < |acts[1..]| ensures !acts[1..][k].Reply? {
          assert acts[1..][k] == acts[k + 1];
        }
      }
      UserInputKeepsConsistent(Apply(p, acts[0]), acts[1..]);
    }
  }

  /** `updateDerivedValues` is reached only from the brake button, which zeroes both
      motors first; joystick moves and polls never touch the derived fields. So speed and
      steering stay 0 whatever happens. */
  lemma {:induction false} DerivedFieldsStayZero(p: Panel, acts: seq<Action>)
    requires p.vehicle.speed == 0 && p.vehicle.steering == 0
    ensures Run(p, acts).vehicle.speed == 0 && Run(p, acts).vehicle.steering == 0
    decreases |acts|
  {
    if |acts| > 0 {
      var a := acts[0];
      if a.Input? {
        ApplyUserAction(p, a);
      }
      DerivedFieldsStayZero(Apply(p, a), acts[1..]);
    }
  }

  /** From page load, any sequence of user input keeps at most one of the indicators and
      hazard on, both motors in range, and the trackers well formed; speed and steering
      stay 0 even with polls interleaved. */
  lemma ReachableFromStart(acts: seq<Action>)
    ensures NoPoll(acts) ==> Consistent(Run(Start, acts))
    ensures Run(Start, acts).vehicle.speed == 0 && Run(Start, acts).vehicle.steering == 0
  {
    if NoPoll(acts) {
      UserInputKeepsConsistent(Start, acts);
    }
    DerivedFieldsStayZero(Start, acts);
  }

  /** A status reply may turn on both indicators at once: the poll does not keep the
      exclusivity the buttons keep. */
  lemma PollCanBreakExclusivity()
    ensures IndicatorsExclusive(Start.vehicle)
    ensures !IndicatorsExclusive(PollReply(PollTick(Start), Status(true, true, false, false, None, None)).vehicle)
  {
  }

  /** While a joystick is active the timer tick sends nothing; otherwise a reply with
      `hazard = true` switches the hazard lights on. */
  lemma PollHazardExample(p: Panel, st: Status)
    requires st.hazard
    ensures !PollGate(p) ==> PollTick(p) == p
    ensures PollGate(p) ==> PollReply(PollTick(p), st).vehicle.hazard
  {
  }

  /** The gate is checked when the request is sent, not when the reply lands: a reply
      to a request sent before a drag began overwrites the motor being dragged. */
  lemma LateReplyOverwritesDrag(y: real, rect: Rect)
    requires MotorSpeed(rect.height, rect.top, y) != 0
    ensures Run(Start, [Tick, Input(Left, MouseDown(y, rect))]).left.active
    ensures Run(Start, [Tick, Input(Left, MouseDown(y, rect))]).vehicle.leftMotor != 0
    ensures Run(Start, [Tick, Input(Left, MouseDown(y, rect)), Reply(Status(false, false, false, false, Some(0), None))]).vehicle.leftMotor == 0
  {
    var down := Input(Left, MouseDown(y, rect));
    var reply := Reply(Status(false, false, false, false, Some(0), None));
    var p1 := Apply(Start, Tick);
    var p2 := Apply(p1, down);
    var p3 := Apply(p2, reply);
    assert [Tick, down][1..] == [down] && [down][1..] == [];
    assert Run(p1, [down]) == Run(p2, []) == p2;
    assert Run(Start, [Tick, down]) == Run(p1, [down]);
    assert [Tick, down, reply][1..] == [down, reply] && [down, reply][1..] == [reply] && [reply][1..] == [];
    assert Run(p2, [reply]) == Run(p3, []) == p3;
    assert Run(p1, [down, reply]) == Run(p2, [reply]);
    assert Run(Start, [Tick, down, reply]) == Run(p1, [down, reply]);
  }

  /** Applying the same reply twice changes nothing more than applying it once. */
  lemma ReconcileIdempotent(v: VehicleState, st: Status)
    ensures Reconcile(Reconcile(v, st), st) == Reconcile(v, st)
  {
  }
}

=== FILE: seqs.dfy ===
/** Small sequence utilities shared by the input tracker and the URL builder. */
module Seqs {

  /** A value that may be absent, like a JavaScript `null` slot. */
  datatype Option<T> = None | Some(value: T)

  /** The index a `for (i = 0; i < s.length; i++) if (p(s[i])) { ...; break; }`
      loop stops at: the first element satisfying `p`, or `None` when there is none. */
  function FirstWhere<T>(s: seq<T>, p: T -> bool): (r: Option<nat>)
    ensures r.Some? ==> r.value < |s| && p(s[r.value])
    ensures r.Some? ==> forall k :: 0 <= k < r.value ==> !p(s[k])
    ensures r.None? <==> forall k :: 0 <= k < |s| ==> !p(s[k])
  {
    if |s| == 0 then None
    else if p(s[0]) then Some(0)
    else
      match FirstWhere(s[1..], p)
      case None => None
      case Some(i) => Some(i + 1)
  }
}

=== FILE: vehicle.dfy ===
/** The process-wide vehicle state record, its derived fields, and the button handlers. */
module Vehicle {
  import opened JsMath
  import opened MotorMapper

  /** The two joysticks, one per motor. */
  datatype Side = Left | Right {
    function Other(): (o: Side)
      ensures o != this
    {
      if this == Left then Right else Left
    }
  }

  /** The `state` object that every control request serialises. */
  datatype VehicleState = VehicleState(
    leftMotor: int,
    rightMotor: int,
    speed: int,
    steering: int,
    light: bool,
    leftIndicator: bool,
    rightIndicator: bool,
    hazard: bool,
    horn: bool)

  /** The state the page starts with: all motors stopped, every toggle off. */
  const Initial: VehicleState := VehicleState(0, 0, 0, 0, false, false, false, false, false)

  function Motor(v: VehicleState, side: Side): int
  {
    if side == Left then v.leftMotor else v.rightMotor
  }

  predicate InRange(x: int)
  {
    -FullSpeed <= x <= FullSpeed
  }

  predicate MotorsInRange(v: VehicleState)
  {
    InRange(v.leftMotor) && InRange(v.rightMotor)
  }

  /** At most one of left indicator, right indicator and hazard is on. */
  predicate IndicatorsExclusive(v: VehicleState)
  {
    && !(v.leftIndicator && v.rightIndicator)
    && !(v.leftIndicator && v.hazard)
    && !(v.rightIndicator && v.hazard)
  }

  /** The five toggles agree. */
  predicate SameToggles(v: VehicleState, w: VehicleState)
  {
    && w.light == v.light
    && w.leftIndicator == v.leftIndicator
    && w.rightIndicator == v.rightIndicator
    && w.hazard == v.hazard
    && w.horn == v.horn
  }

  /** `w` differs from `v` at most in the motor of `side`. */
  predicate OnlyMotorChanged(v: VehicleState, w: VehicleState, side: Side)
  {
    && Motor(w, side.Other()) == Motor(v, side.Other())
    && w.speed == v.speed
    && w.steering == v.steering
    && SameToggles(v, w)
  }

  /** `w` differs from `v` at most in its toggles. */
  predicate MotionUnchanged(v: VehicleState, w: VehicleState)
  {
    w.leftMotor == v.leftMotor && w.rightMotor == v.rightMotor && w.speed == v.speed && w.steering == v.steering
  }

  /** Assignment of one motor field, as `state.leftMotor = x` or `state.rightMotor = x`. */
  function WithMotor(v: VehicleState, side: Side, x: int): (w: VehicleState)
    ensures Motor(w, side) == x
    ensures OnlyMotorChanged(v, w, side)
  {
    if side == Left then v.(leftMotor := x) else v.(rightMotor := x)
  }

  /** The effective `updateDerivedValues`: signed average and half-difference of the
      motors, each rounded with `Math.round` and clamped to the motor range. */
  function UpdateDerivedValues(v: VehicleState): (w: VehicleState)
    ensures InRange(w.speed) && InRange(w.steering)
    ensures w.leftMotor == v.leftMotor && w.rightMotor == v.rightMotor
    ensures SameToggles(v, w)
  {
    var speed := Round((v.leftMotor + v.rightMotor) as real / 2.0);
    var steering := Round((v.rightMotor - v.leftMotor) as real / 2.0);
    v.(speed := Clamp(speed, -FullSpeed, FullSpeed), steering := Clamp(steering, -FullSpeed, FullSpeed))
  }

  /** The brake button: both motors stop and the derived fields are recomputed. */
  function Brake(v: VehicleState): (w: VehicleState)
    ensures w.leftMotor == 0 && w.rightMotor == 0
    ensures w.speed == 0 && w.steering == 0
    ensures SameToggles(v, w)
  {
    var w := UpdateDerivedValues(v.(leftMotor := 0, rightMotor := 0));
    RoundOfInteger(0);
    w
  }

  /** The light button flips the headlights and nothing else. */
  function ToggleLight(v: VehicleState): (w: VehicleState)
    ensures w.light == !v.light
    ensures w == v.(light := w.light)
  {
    v.(light := !v.light)
  }

  /** Pressing (`down`) or releasing the horn button sounds or silences the horn. */
  function SetHorn(v: VehicleState, down: bool): (w: VehicleState)
    ensures w.horn == down
    ensures w == v.(horn := w.horn)
  {
    v.(horn := down)
  }

  /** The hazard button flips the hazard lights; switching them on clears both indicators. */
  function ToggleHazard(v: VehicleState): (w: VehicleState)
    ensures w.hazard == !v.hazard
    ensures w.hazard ==> !w.leftIndicator && !w.rightIndicator
    ensures !w.hazard ==> w.leftIndicator == v.leftIndicator && w.rightIndicator == v.rightIndicator
    ensures IndicatorsExclusive(v) ==> IndicatorsExclusive(w)
    ensures MotionUnchanged(v, w) && w.light == v.light && w.horn == v.horn
  {
    var w := v.(hazard := !v.hazard);
    if w.hazard then w.(leftIndicator := false, rightIndicator := false) else w
  }

  /** The left-indicator button flips the left indicator. Switching it on clears the
      right indicator; either way the hazard lights go off. */
  function ToggleLeftIndicator(v: VehicleState): (w: VehicleState)
    ensures w.leftIndicator == !v.leftIndicator
    ensures !w.hazard
    ensures w.rightIndicator == (v.rightIndicator && !w.leftIndicator)
    ensures IndicatorsExclusive(w)
    ensures MotionUnchanged(v, w) && w.light == v.light && w.horn == v.horn
  {
    var w := v.(leftIndicator := !v.leftIndicator);
    if w.leftIndicator then w.(rightIndicator := false, hazard := false)
    else w.(hazard := false)
  }

  /** The right-indicator button, the mirror image of the left one. */
  function ToggleRightIndicator(v: VehicleState): (w: VehicleState)
    ensures w.rightIndicator == !v.rightIndicator
    ensures !w.hazard
    ensures w.leftIndicator == (v.leftIndicator && !w.rightIndicator)
    ensures IndicatorsExclusive(w)
    ensures MotionUnchanged(v, w) && w.light == v.light && w.horn == v.horn
  {
    var w := v.(rightIndicator := !v.rightIndicator);
    if w.rightIndicator then w.(leftIndicator := false, hazard := false)
    else w.(hazard := false)
  }

  /** The buttons of the panel; the horn button's mouse and touch presses behave alike. */
  datatype Button = LightBtn | BrakeBtn | HornDown | HornUp | HazardBtn | LeftIndBtn | RightIndBtn

  /** The click (or press/release) handler of each button. */
  function PressButton(v: VehicleState, b: Button): (w: VehicleState)
    ensures IndicatorsExclusive(v) ==> IndicatorsExclusive(w)
    ensures MotorsInRange(v) ==> MotorsInRange(w)
    ensures b != BrakeBtn ==> MotionUnchanged(v, w)
    ensures b == BrakeBtn ==> w.leftMotor == 0 && w.rightMotor == 0 && w.speed == 0 && w.steering == 0 && SameToggles(v, w)
    ensures (b == LeftIndBtn || b == RightIndBtn) ==> !w.hazard
  {
    match b
    case LightBtn => ToggleLight(v)
    case BrakeBtn => Brake(v)
    case HornDown => SetHorn(v, true)
    case HornUp => SetHorn(v, false)
    case HazardBtn => ToggleHazard(v)
    case LeftIndBtn => ToggleLeftIndicator(v)
    case RightIndBtn => ToggleRightIndicator(v)
  }

  /** With both motors in range the final clamps of `updateDerivedValues` change nothing:
      speed and steering are the rounded-up halves of the motor sum and difference. */
  lemma DerivedValuesIntegerForm(v: VehicleState)
    requires MotorsInRange(v)
    ensures UpdateDerivedValues(v).speed == (v.leftMotor + v.rightMotor + 1) / 2
    ensures UpdateDerivedValues(v).steering == (v.rightMotor - v.leftMotor + 1) / 2
  {
    RoundHalf(v.leftMotor + v.rightMotor);
    RoundHalf(v.rightMotor - v.leftMotor);
  }

  /** The speed is a signed average: full reverse on both motors gives -255. */
  lemma SpeedCanBeNegative()
    ensures UpdateDerivedValues(Initial.(leftMotor := -255, rightMotor := -255)).speed == -255
  {
    DerivedValuesIntegerForm(Initial.(leftMotor := -255, rightMotor := -255));
  }

  /** Left motor 200 and right motor -100 give speed 50 and steering -150. */
  lemma DerivedValuesExample()
    ensures UpdateDerivedValues(Initial.(leftMotor := 200, rightMotor := -100)).speed == 50
    ensures UpdateDerivedValues(Initial.(leftMotor := 200, rightMotor := -100)).steering == -150
  {
    DerivedValuesIntegerForm(Initial.(leftMotor := 200, rightMotor := -100));
  }

  /** Switching the hazard lights on while the left indicator blinks clears both indicators. */
  lemma HazardOverridesIndicatorExample()
    ensures ToggleHazard(Initial.(leftIndicator := true)).hazard
    ensures !ToggleHazard(Initial.(leftIndicator := true)).leftIndicator
    ensures !ToggleHazard(Initial.(leftIndicator := true)).rightIndicator
  {
  }
}
